=== FILE: README.md ===
# ECDSA.py in Dafny

A model of a small educational ECDSA implementation: modular inverse and
division, affine points on a short-Weierstrass curve with the sentinel
`(p, 0)` standing for the point at infinity, point addition, MSB-first
double-and-add scalar multiplication, the `hex2int` digest parser, and the
arithmetic of key generation, signing and verification.

Modules, one per file, in dependency order:

- `Results` (`results.dfy`): the error kinds and a `Result` type. Each
  exception the program raises becomes an `Err` value:
  - `NotOnCurve` stands for 'Point is Not On Curve';
  - `NoInverse` stands for 'No modular inverse';
  - `InvalidHex` is the `ValueError` of `int(..., 16)`;
  - `NoncesExhausted` is the model's own error for the signing loop running
    out of supplied nonces.
- `ModArith` (`modarith.dfy`):
  - congruence lemmas;
  - an extended Euclid with a Bézout postcondition, standing in for the
    `egcd` package;
  - `mod_inv` and `mod_div`, with the modulus passed explicitly.
- `Curve` (`curve.dfy`): the curve parameters and the P-224 constants the
  program uses (`a = -3`), `is_on_curve`, and `add_points`.
- `ScalarMul` (`scalarmul.dfy`): `mul_point` and its recursive
  double-and-add specification.
- `Hex` (`hex.dfy`): `hex2int`, and a lower-case fixed-width renderer in
  the shape of `hexdigest()`.
- `Ecdsa` (`ecdsa.dfy`):
  - `generate_keypair`;
  - `generate_signature`, both with the retry test as written and with the
    evidently intended one;
  - `verify_signature`.
- `ToyCurve` (`toycurve.dfy`): worked scenarios on y² = x³ + 2x + 2 over
  the integers modulo 17. G = (5, 1) has order 19, the private key is 2 and
  the nonce is 3.

Randomness and hashing are parameters:
- the private scalar is an argument `d` in [1, n);
- the digest is an integer `e`;
- the nonces drawn by the signing loop are a sequence consumed front to
  back.

Where the program's comments and its code disagree, the model follows the
code:
- The header and class comments name P-256, but the active constants
  (ECDSA.py:15-20) are those of NIST P-224, and `Curve.P224` holds those.
- `mul_point` returns its operand, not the point at infinity, when
  `k % n == 0` (`ScalarMul.MulPoint`, `ToyCurve.ToyMulOrderGivesG`).
- A non-invertible `s` in verification is the `NoInverse` error, not a
  rejection (`Ecdsa.Verify`).
- The y-coordinate of a sum is computed through the code's intermediate
  `v`. `Curve.ChordCoordinates` proves it agrees with the textbook
  y3 = s·(x1 − x3) − y1 modulo p.

## Model

| member | source | states |
|---|---|---|
| ModArith.Egcd | ECDSA.py:87 | the returned (g, x, y) satisfy a·x + b·y = g; g is a common divisor of a and b, and g is zero only when both are |
| ModArith.EgcdIsGreatest | ECDSA.py:87-88 | every positive common divisor of a and b divides g, so g is the gcd that `mod_inv` compares with 1 |
| ModArith.ModInv | ECDSA.py:86-90 | fails with the no-inverse error exactly when a and m share a divisor above 1; otherwise the result r lies in [0, m) and a·r ≡ 1 (mod m) |
| ModArith.ModDiv | ECDSA.py:93-95 | fails exactly when b mod p has no inverse; otherwise the quotient q lies in [0, p) and q·b ≡ a (mod p) |
| ModArith.CancelInverse | ECDSA.py:90-95 | multiplying by a modular inverse and then by the original factor gives back the value modulo m |
| ModArith.CongCancel | ECDSA.py:86-90 | an invertible factor cancels from both sides of a congruence |
| ModArith.ZeroNotCoprime | ECDSA.py:88-89 | a multiple of the modulus has no inverse |
| Curve.OnCurveEquation | ECDSA.py:36-44 | the reduce-as-you-go test of `is_on_curve` holds exactly for the sentinel (x = p) or for y² ≡ x³ + a·x + b (mod p) |
| Curve.Slope | ECDSA.py:55-61 | for equal x, a tangent slope s with s·2y1 ≡ 3x1² + a; otherwise a chord slope with s·(x2 − x1) ≡ y2 − y1; it fails exactly when the denominator mod p has no inverse |
| Curve.Chord | ECDSA.py:62-65 | the third point has x3 ≡ s² − x1 − x2 and y3 ≡ s·(x1 − x3) − y1 (mod p), both reduced into [0, p) |
| Curve.ChordCoordinates | ECDSA.py:62-64 | the code's `v` detour for y3 agrees with the textbook formula modulo p |
| Curve.AddPoints | ECDSA.py:46-50 | the curve-check error arises exactly when an operand fails `is_on_curve`; the only other possible failure is the missing inverse |
| Curve.AddIdentity | ECDSA.py:51-54 | any operand with x = p, canonical or not, is neutral: on the left the other operand comes back, and on the right, after an affine left operand, the left operand comes back |
| Curve.AddPointsGroupLaw | ECDSA.py:55-66 | for affine operands, a vertical line gives the sentinel; in the tangent and chord cases the sum fails exactly when the slope's denominator is not invertible, and otherwise it is the reduced third point for the tangent or chord slope |
| Curve.AddPointsBySlope | ECDSA.py:55-66 | in the tangent and chord cases the sum is the third point built from the slope |
| Curve.DoublingTwoTorsionFails | ECDSA.py:55-57 | doubling a point with y ≡ 0 asks `mod_div` for the inverse of zero and fails; it does not give the point at infinity |
| Curve.NegationOnCurve | ECDSA.py:36-44 | (x, p − y) is on the curve whenever the affine point (x, y) is |
| Curve.AddNegationIsIdentity | ECDSA.py:55-59 | P + (x, p − y) is the sentinel for every affine on-curve P that is not its own negation |
| ScalarMul.BitsRoundTrip | ECDSA.py:75-77 | the digits of `bin(k)[2:]` read back as k; for k ≥ 1 they start with a one and their count is the bit length of k |
| ScalarMul.MulSpecStep | ECDSA.py:79-82 | one pass of the loop body (double, then add on a one digit) is one step of the recursive double-and-add |
| ScalarMul.MulSpecPrefix | ECDSA.py:79-82 | consuming the next digit of the digit string advances the recursive specification by one step |
| ScalarMul.MulSpecErrPersists | ECDSA.py:80-82 | once an addition raises, every longer digit prefix ends with the same error, as an exception aborts the loop |
| ScalarMul.DoubleAndAdd | ECDSA.py:75-83 | the loop from the sentinel over the digits, most significant first, computes the recursive double-and-add of k |
| ScalarMul.MulPoint | ECDSA.py:68-83 | an off-curve operand gives the curve-check error; a sentinel operand, or k a multiple of n, gives the operand itself; otherwise the result is the double-and-add of k |
| ScalarMul.MulSpecOfIdentity | ECDSA.py:78-83 | every multiple of the sentinel is the sentinel |
| ScalarMul.MulSpecOffCurve | ECDSA.py:78-82 | a positive multiple of an off-curve point fails with the curve-check error raised inside `add_points` |
| ScalarMul.MulSpecOne | ECDSA.py:78-82 | one times an on-curve point is the point |
| ScalarMul.MulEarlyReturnsAgree | ECDSA.py:69-72 | the off-curve and sentinel early returns give what the loop would have given (the off-curve error for k ≥ 1, the sentinel itself); only the k-multiple-of-n return departs from it |
| Hex.Hex2Int | ECDSA.py:98-99 | succeeds exactly when the text left after stripping is non-empty and all hex digits; the only failure is the invalid-literal error, and a value is below 16 to the number of digits |
| Hex.StripCharacters | ECDSA.py:99 | the stripped text is all hex digits iff every character is a hex digit or a separator, and non-empty iff some character is not a separator |
| Hex.Hex2IntSucceeds | ECDSA.py:99 | parsing succeeds exactly on text made of hex digits, ':' and whitespace holding at least one digit |
| Hex.Hex2IntOneDigit | ECDSA.py:99 | a single hex digit of either case reads as its value |
| Hex.StripConcat | ECDSA.py:99 | dropping ':' and whitespace commutes with concatenation |
| Hex.SeparatorIgnored | ECDSA.py:99 | inserting a ':' or a whitespace character anywhere leaves the result, or the failure, unchanged |
| Hex.Hex2IntNoDigits | ECDSA.py:99 | text made only of separators leaves no digits and is rejected |
| Hex.Hex2IntAppendDigit | ECDSA.py:99 | appending a hex digit multiplies the value by 16 and adds the digit |
| Hex.Hex2IntMixedCase | ECDSA.py:99 | "AB:cd" reads as 0xABCD |
| Hex.HexDigestValue | ECDSA.py:113 | a value rendered with w lower-case digits reads back as the value modulo 16^w |
| Hex.Hex2IntOfHexDigest | ECDSA.py:113 | parsing a digest rendering of a value that fits its width gives the value back |
| Ecdsa.GenerateKeypair | ECDSA.py:102-106 | an off-curve generator is an error; for an affine on-curve generator the key pair exists exactly when the double-and-add d·G succeeds, and its public key is d·G with private key d; a sentinel generator comes back as the public key; when d·G raises, key generation raises the same error |
| Ecdsa.SignStep | ECDSA.py:117-121 | r is (k·G).x mod n and s·k ≡ e + d·r (mod n), both in [0, n); once k·G succeeds, the step fails exactly when k has no inverse modulo n; when k·G raises, the step raises the same error, so an off-curve generator is the curve-check error |
| Ecdsa.RetryAsWrittenMeansBothZero | ECDSA.py:116 | the bitwise or (&#124;) of the retry test applies to `0` and `s` inside the chained comparison r == (0 &#124; s) == 0, so the test holds exactly when both r and s are zero |
| Ecdsa.SignLoop | ECDSA.py:114-122 | a starting pair that passes the test is returned at once; otherwise the result is the pair of the first nonce whose pair is not (0, 0), every earlier nonce having given (0, 0); from a rejected start the nonces run out exactly when every one gave (0, 0) |
| Ecdsa.Sign | ECDSA.py:109-122 | a signature is never (0, 0) and both components lie in [0, n); it is the pair of the first nonce whose pair is not (0, 0), and the nonces run out exactly when every one gave (0, 0) |
| Ecdsa.SignComplete | ECDSA.py:114-122 | conversely, when nonce i gives a pair other than (0, 0) and every earlier nonce gave (0, 0), signing returns exactly that pair, for any i |
| Ecdsa.SignStepErrorPropagates | ECDSA.py:116-121 | when nonce i raises (no inverse, or a failing point operation) after nonces that all gave (0, 0), signing ends with that same error |
| Ecdsa.SignFirstNonce | ECDSA.py:114-122 | the first nonce decides the signature unless its pair is (0, 0), even when only one component is zero |
| Ecdsa.SignLoopEither | ECDSA.py:116-121 | with the intended retry test, a starting pair without a zero component is returned at once; otherwise the result is the pair of the first nonce without a zero component, every earlier nonce having given one; from a rejected start the nonces run out exactly when every one gave one |
| Ecdsa.SignCorrected | ECDSA.py:114-122 | with the intended retry test, both components lie in [1, n); the signature is the pair of the first nonce without a zero component, and the nonces run out exactly when every one gave a zero component |
| Ecdsa.SignCorrectedComplete | ECDSA.py:114-122 | with the intended retry test, when nonce i gives a pair without a zero component and every earlier nonce gave one with a zero component, signing returns exactly that pair |
| Ecdsa.SignCorrectedErrorPropagates | ECDSA.py:116-121 | with the intended retry test, when nonce i raises after nonces that all gave a zero component, signing ends with that same error |
| Ecdsa.SignLoopEitherRestart | ECDSA.py:116-121 | the intended loop continues the same way from any rejected pair: only the test on the pair matters |
| Ecdsa.VerifyScalars | ECDSA.py:130-132 | fails exactly when s has no inverse modulo n; otherwise u1·s ≡ e and u2·s ≡ r (mod n), both below n |
| Ecdsa.Verify | ECDSA.py:125-138 | a non-invertible s, in particular any multiple of n, is the no-inverse error rather than a rejection; with an invertible s, an off-curve generator is the curve-check error, and so is an off-curve public key once u1·G succeeds; every error is one of these two kinds, never a silent false |
| Ecdsa.VerifyErrorPropagates | ECDSA.py:130-134 | an error raised by either scalar multiplication or by the final addition is the result of verification, the first failing step deciding which |
| Ecdsa.VerifyDecision | ECDSA.py:130-138 | once the scalars, both multiplications and the addition succeed, the signature is accepted exactly when the x-coordinate of u1·G + u2·Q equals r modulo n |
| Ecdsa.VerifyRecoversNonce | ECDSA.py:119-132 | for a signature made with nonce k and key d, the verifier's scalars satisfy u1 + u2·d ≡ k (mod n) |
| Ecdsa.VerifyDependsOnResidues | ECDSA.py:130-135 | verification depends on the digest and on r only modulo n |
| ToyCurve.ToyMulOrderGivesG | ECDSA.py:73-74 | on the toy curve, 0·G and 19·G (19 being the order) both return G itself, not the point at infinity |
| ToyCurve.ToyKeypair | ECDSA.py:102-106 | private key 2 gives the public key 2G = (6, 3) |
| ToyCurve.MulPointThreeG | ECDSA.py:68-83 | 3·G = (10, 6) on the toy curve |
| ToyCurve.ToySign | ECDSA.py:109-122 | digest 10, key 2 and nonce 3 sign as (10, 10) |
| ToyCurve.ToyVerify | ECDSA.py:125-138 | that signature verifies against Q = (6, 3): u1 = u2 = 1 and G + Q = (10, 6) |
| ToyCurve.ToySignAcceptsZeroS | ECDSA.py:116 | digest 18, key 2 and nonce 3 give r = 10 and s = 0, and the loop as written returns (10, 0) |
| ToyCurve.ToyCorrectedSignRetries | ECDSA.py:116 | the intended loop rejects (10, 0) and asks for another nonce |
| ToyCurve.ToyVerifyZeroS | ECDSA.py:130 | verifying (10, 0) fails with the no-inverse error |
| ToyCurve.ToyAddOffCurve | ECDSA.py:47-48 | adding the off-curve point (5, 2) raises the curve-check error |

## Left out

- The interactive test script at the end of the file (ECDSA.py:141-167) is not modelled. It prompts, prints, and runs the valid and the `r+1, s+1` verification.
- SHA-256 and `hexdigest()` are not modelled. The digest enters as the integer `e`. `Hex.HexDigest` models only the shape of a digest string, for the round trip through `hex2int`.
- `random.randrange` is not modelled. The private key is an argument in [1, n), and the signing nonces are a supplied sequence of values in [1, n). Running out of nonces is the model's `NoncesExhausted` error. The program itself would simply draw again.
- The internals of the `egcd` package are not modelled. `ModArith.Egcd` is an extended Euclid over naturals with the Bézout property. Because of that, `ModInv` takes a natural `a`, and `Verify` takes a natural `s`. The program's call sites always pass a reduced value or a value in [1, n), except the `s` of verification, whose sign is not modelled.
- Facts of the group law are not proved:
  - that sums and multiples of on-curve points stay on the curve;
  - associativity;
  - that n·G is the point at infinity;
  - hence verify(sign) = true and the rejection of a tampered signature in general.
  - `Ecdsa.VerifyRecoversNonce` proves the modular algebra behind the correctness of verification. `ToyCurve.ToyVerify` shows one complete accepting run.
- Ecdsa.Verify: its own contract states the no-inverse error for s and the curve-check error for an off-curve generator or public key. `Ecdsa.VerifyErrorPropagates` states how errors inside the point arithmetic propagate, and `Ecdsa.VerifyDecision` states the accept/reject rule. That verification accepts every signature `Sign` produces (verify(sign) = true) is not proved: whether u1·G + u2·Q is the signer's k·G depends on the unproved group laws. `Ecdsa.VerifyRecoversNonce` proves the modular part, u1 + u2·d ≡ k (mod n).
- The P-224 constants are recorded in `Curve.P224`, but nothing is proved about them. Primality of p and n and the generator's order are far beyond what the verifier can evaluate. The toy curve carries the concrete scenarios. Its private key is 2, so that every multiple stays a short chain of point additions.
- Hex.Hex2Int: covers hex digits, ':' and the whitespace that `str.split()` removes. It does not model the optional sign, the `0x` prefix, the `_` digit separators, or the non-ASCII digits that Python's `int(..., 16)` also accepts. A digest string never contains them.
- ScalarMul.Mul and ScalarMul.MulPoint take a natural k. In `mul_point`, a negative k that is a multiple of n returns the point, and any other negative k makes `bin(k)[2:]` start with `b`, so the digit conversion raises. No call site passes a negative k: the key and the nonces lie in [1, n), and u1, u2 are reduced modulo n.
- `bin(k)` strings are not modelled. The digits are a `seq<bool>`, most significant first (`ScalarMul.Bits`).

## Findings

| source | as written | input that shows it | evidently intended | confidence | as-written member | corrected member |
|---|---|---|---|---|---|---|
| ECDSA.py:116 | the retry test puts a bitwise or between `r == 0` and `s == 0`; the bitwise or binds tighter, so the line parses as the chained comparison r == (0 &#124; s) == 0, and 0 &#124; s is s, so the loop repeats only while both r and s are zero, and a signature with s = 0 (or r = 0) is returned | toy curve y² = x³ + 2x + 2 mod 17, G = (5, 1), n = 19, key d = 2, digest e = 18, nonce 3: r = 10, s = 13·(18 + 20) mod 19 = 0, and the pair (10, 0) is returned; verification of it then fails with the no-inverse error | retry while r == 0 or s == 0, so both components lie in [1, n) | high; not executed | Ecdsa.Sign (with ToyCurve.ToySignAcceptsZeroS and Ecdsa.RetryAsWrittenMeansBothZero) | Ecdsa.SignCorrected (with ToyCurve.ToyCorrectedSignRetries) |

=== FILE: curve.dfy ===
/** Affine points on the short-Weierstrass curve y^2 = x^3 + a*x + b over
    the integers modulo p, with the group law of section 2.2.1 of SEC 1
    v2.0 as written in class `Point` of ECDSA.py. The point at infinity is
    the sentinel point whose x-coordinate equals `p`. */
module Curve {
  import opened Results
  import opened ModArith

  /** The class-level constants of `Point`: modulus, coefficients,
      generator coordinates and generator order. */
  datatype CurveParams = CurveParams(p: int, a: int, b: int, gx: int, gy: int, n: int) {
    predicate Valid() {
      p > 1 && n > 1
    }
  }

  type Params = c: CurveParams | c.Valid() witness CurveParams(2, 0, 0, 0, 0, 2)

  /** The active constants: NIST P-224 (FIPS 186-4, appendix D.1.2.2). */
  const P224: Params := CurveParams(
    26959946667150639794667015087019630673557916260026308143510066298881,
    -3,
    18958286285566608000408668544493926415504680968679321075787234672564,
    19277929113566293071110308034699488026831934219452440156649784352033,
    19926808758034470970197974370888749184205991990603949537637343198772,
    26959946667150639794667015087019625940457807714424391721682722368061)

  datatype Point = Point(x: int, y: int)

  function Generator(c: Params): Point {
    Point(c.gx, c.gy)
  }

  /** `identity()`: the sentinel (p, 0). */
  function Identity(c: Params): Point {
    Point(c.p, 0)
  }

  /** Any point whose x-coordinate is `p` stands for the point at infinity. */
  predicate IsIdentity(c: Params, pt: Point) {
    pt.x == c.p
  }

  /** `is_on_curve`: the curve equation with every intermediate reduced. */
  predicate OnCurve(c: Params, pt: Point) {
    if pt.x == c.p then true else (pt.y * pt.y) % c.p == CurveRhs(c, pt.x)
  }

  /** The right-hand side `est` of `is_on_curve`, reduced after every step. */
  function CurveRhs(c: Params, x: int): int {
    ((((x * x) % c.p + c.a) * x) % c.p + c.b) % c.p
  }

  /** The step-by-step reductions of `is_on_curve` decide the plain curve
      equation modulo p. */
  lemma OnCurveEquation(c: Params, pt: Point)
    ensures OnCurve(c, pt) <==>
      IsIdentity(c, pt) || Cong(pt.y * pt.y, pt.x * pt.x * pt.x + c.a * pt.x + c.b, c.p)
  {
    var p, x := c.p, pt.x;
    CongReduce(x * x, p);
    CongAdd((x * x) % p, x * x, c.a, p);
    CongMul((x * x) % p + c.a, x * x + c.a, x, p);
    CongReduce(((x * x) % p + c.a) * x, p);
    CongAdd(((x * x) % p + c.a) * x % p, (x * x + c.a) * x, c.b, p);
    CubicExpand(x, c.a, c.b);
  }

  /** Horner form of the right-hand side of the curve equation. */
  lemma CubicExpand(x: int, a: int, b: int)
    ensures (x * x + a) * x + b == x * x * x + a * x + b
  {
  }

  /** The slope of the line through the operands: the tangent when the
      x-coordinates agree (doubling), the chord otherwise. */
  function Slope(c: Params, p1: Point, p2: Point): (r: Result<int>)
    ensures r.Err? ==> r.error == NoInverse
    ensures r.Ok? ==> 0 <= r.value < c.p
    ensures p1.x == p2.x ==>
      (r.Err? <==> !Coprime((2 * p1.y) % c.p, c.p)) &&
      (r.Ok? ==> Cong(r.value * (2 * p1.y), 3 * p1.x * p1.x + c.a, c.p))
    ensures p1.x != p2.x ==>
      (r.Err? <==> !Coprime((p2.x - p1.x) % c.p, c.p)) &&
      (r.Ok? ==> Cong(r.value * (p2.x - p1.x), p2.y - p1.y, c.p))
  {
    if p1.x == p2.x then ModDiv(3 * p1.x * p1.x + c.a, 2 * p1.y, c.p)
    else ModDiv(p2.y - p1.y, p2.x - p1.x, c.p)
  }

  /** The third point computed from slope `s`, with the intermediate `v`
      of ECDSA.py: x3 = s^2 - x1 - x2 and y3 = s*(x1 - x3) - y1. */
  function Chord(c: Params, p1: Point, p2: Point, s: int): (r: Point)
    ensures ThirdPoint(c, p1, p2, s, r)
  {
    var p := c.p;
    var v := (p1.y - (s * p1.x) % p) % p;
    var x := (s * s - p1.x - p2.x) % p;
    var y := (p - (s * x) % p - v) % p;
    ChordCoordinates(p, p1.x, p1.y, p2.x, s);
    Point(x, y)
  }

  lemma ChordCoordinates(p: int, x1: int, y1: int, x2: int, s: int)
    requires p > 1
    ensures var x := (s * s - x1 - x2) % p;
      var y := (p - (s * x) % p - (y1 - (s * x1) % p) % p) % p;
      && Cong(x, s * s - x1 - x2, p)
      && Cong(y, s * (x1 - x) - y1, p)
  {
    var x := (s * s - x1 - x2) % p;
    ChordY(p, x1, y1, s, x);
    CongReduce(s * s - x1 - x2, p);
    CongReduce(s * (x1 - x) - y1, p);
  }

  lemma ChordY(p: int, x1: int, y1: int, s: int, x: int)
    requires p > 1
    ensures (p - (s * x) % p - (y1 - (s * x1) % p) % p) % p == (s * (x1 - x) - y1) % p
  {
    ChordYLinear(p, y1, s * x, s * x1);
    assert s * x1 - s * x - y1 == s * (x1 - x) - y1;
  }

  /** `ChordY` with the products `u = s*x3` and `w = s*x1` abstracted. */
  lemma ChordYLinear(p: int, y1: int, u: int, w: int)
    requires p > 1
    ensures (p - u % p - (y1 - w % p) % p) % p == (w - u - y1) % p
  {
    var v := (y1 - w % p) % p;
    CongSubReduce(y1, w, p);
    assert v == (y1 - w) % p;
    assert p - u % p - v == (-u - v) + p * (1 + u / p);
    ModAddMultiple(-u - v, 1 + u / p, p);
    CongSubReduce(-u, y1 - w, p);
  }

  /** `add_points`. */
  function AddPoints(c: Params, p1: Point, p2: Point): (r: Result<Point>)
    ensures r.Err? ==> r.error in {NotOnCurve, NoInverse}
    ensures r == Err(NotOnCurve) <==> !OnCurve(c, p1) || !OnCurve(c, p2)
  {
    if !OnCurve(c, p1) || !OnCurve(c, p2) then Err(NotOnCurve)
    else if p1.x == c.p then Ok(p2)
    else if p2.x == c.p then Ok(p1)
    else if p1.x == p2.x && p1.y != p2.y then Ok(Identity(c))
    else
      var s :- Slope(c, p1, p2);
      Ok(Chord(c, p1, p2, s))
  }

  /** An operand with x == p, canonical or not, is neutral: on the left
      the other operand comes back, and on the right (after an affine left
      operand) the left operand comes back. */
  lemma AddIdentity(c: Params, p1: Point, p2: Point)
    requires OnCurve(c, p1) && OnCurve(c, p2)
    ensures IsIdentity(c, p1) ==> AddPoints(c, p1, p2) == Ok(p2)
    ensures !IsIdentity(c, p1) && IsIdentity(c, p2) ==> AddPoints(c, p1, p2) == Ok(p1)
  {
  }

  /** Once both operands are on the curve and neither is the sentinel,
      `add_points` is the chord-and-tangent law of SEC 1 section 2.2.1: a
      vertical line gives the sentinel; otherwise it fails exactly when the
      slope's denominator has no inverse modulo p, and else returns
      x3 = s^2 - x1 - x2, y3 = s*(x1 - x3) - y1 for the tangent or chord
      slope s, both reduced into [0, p). */
  lemma AddPointsGroupLaw(c: Params, p1: Point, p2: Point)
    requires OnCurve(c, p1) && OnCurve(c, p2)
    requires !IsIdentity(c, p1) && !IsIdentity(c, p2)
    ensures p1.x == p2.x && p1.y != p2.y ==> AddPoints(c, p1, p2) == Ok(Identity(c))
    ensures p1 == p2 || p1.x != p2.x ==>
      var r := AddPoints(c, p1, p2);
      && (r.Err? <==> !Coprime(SlopeDenominator(c, p1, p2) % c.p, c.p))
      && (r.Err? ==> r.error == NoInverse)
      && (r.Ok? ==> exists s: int :: 0 <= s < c.p && TangentOrChord(c, p1, p2, s) && ThirdPoint(c, p1, p2, s, r.value))
  {
    if p1 == p2 || p1.x != p2.x {
      var sl := Slope(c, p1, p2);
      if sl.Ok? {
        var s := sl.value;
        assert AddPoints(c, p1, p2) == Ok(Chord(c, p1, p2, s));
        assert TangentOrChord(c, p1, p2, s);
      }
    }
  }

  /** In the tangent and chord cases the result is the third point for the
      slope the operands determine. */
  lemma AddPointsBySlope(c: Params, p1: Point, p2: Point, s: int)
    requires OnCurve(c, p1) && OnCurve(c, p2)
    requires !IsIdentity(c, p1) && !IsIdentity(c, p2)
    requires p1 == p2 || p1.x != p2.x
    requires Slope(c, p1, p2) == Ok(s)
    ensures AddPoints(c, p1, p2) == Ok(Chord(c, p1, p2, s))
  {
  }

  /** The value whose inverse modulo p the slope needs: 2*y1 for the
      tangent, x2 - x1 for the chord. */
  function SlopeDenominator(c: Params, p1: Point, p2: Point): int {
    if p1.x == p2.x then 2 * p1.y else p2.x - p1.x
  }

  /** `s` is the tangent slope (x1 == x2) or the chord slope, modulo p. */
  ghost predicate TangentOrChord(c: Params, p1: Point, p2: Point, s: int) {
    if p1.x == p2.x then Cong(s * (2 * p1.y), 3 * p1.x * p1.x + c.a, c.p)
    else Cong(s * (p2.x - p1.x), p2.y - p1.y, c.p)
  }

  /** `r` is the reduced third point of the addition formula for slope `s`. */
  ghost predicate ThirdPoint(c: Params, p1: Point, p2: Point, s: int, r: Point) {
    && 0 <= r.x < c.p && 0 <= r.y < c.p
    && Cong(r.x, s * s - p1.x - p2.x, c.p)
    && Cong(r.y, s * (p1.x - r.x) - p1.y, c.p)
  }

  /** Doubling a point with y == 0 (mod p) asks `mod_div` for the inverse
      of zero: an error, not the point at infinity. */
  lemma DoublingTwoTorsionFails(c: Params, pt: Point)
    requires OnCurve(c, pt) && !IsIdentity(c, pt) && pt.y % c.p == 0
    ensures AddPoints(c, pt, pt) == Err(NoInverse)
  {
    CongMul(pt.y, 0, 2, c.p);
    assert pt.y * 2 == 2 * pt.y;
    ZeroNotCoprime((2 * pt.y) % c.p, c.p);
  }

  /** Negating modulo p leaves the square unchanged. */
  lemma NegSquare(p: int, y: int)
    requires p > 0
    ensures ((p - y) * (p - y)) % p == (y * y) % p
  {
    assert (p - y) * (p - y) == y * y + p * (p - 2 * y);
    ModAddMultiple(y * y, p - 2 * y, p);
  }

  /** The negation (x, p - y) of an affine point is on the curve. */
  lemma NegationOnCurve(c: Params, pt: Point)
    requires OnCurve(c, pt) && !IsIdentity(c, pt)
    ensures OnCurve(c, Point(pt.x, c.p - pt.y))
  {
    NegSquare(c.p, pt.y);
  }

  /** Adding the negation (x, p - y) gives the sentinel, unless it
      coincides with the point (2y == p). */
  lemma AddNegationIsIdentity(c: Params, pt: Point)
    requires OnCurve(c, pt) && !IsIdentity(c, pt) && 2 * pt.y != c.p
    ensures AddPoints(c, pt, Point(pt.x, c.p - pt.y)) == Ok(Identity(c))
  {
    NegationOnCurve(c, pt);
    AddPointsGroupLaw(c, pt, Point(pt.x, c.p - pt.y));
  }

}

=== FILE: ecdsa.dfy ===
/** Key generation, signing (section 4.1.3 of SEC 1 v2.0) and verification
    (section 4.1.4) as ECDSA.py computes them. The digest integer, the
    private scalar and the nonces are parameters: hashing and randomness
    are not part of this model. */
module Ecdsa {
  import opened Results
  import opened ModArith
  import opened Curve
  import opened ScalarMul

  datatype Signature = Signature(r: int, s: int)

  datatype KeyPair = KeyPair(pub: Point, priv: int)

  /** `generate_keypair` with the private scalar drawn from [1, n) passed
      in: since `d` is not a multiple of n, the public key is the genuine
      double-and-add multiple of the generator. */
  function GenerateKeypair(c: Params, d: int): (r: Result<KeyPair>)
    requires 1 <= d < c.n
    ensures !OnCurve(c, Generator(c)) ==> r == Err(NotOnCurve)
    ensures r.Ok? ==> r.value.priv == d
    ensures r.Ok? && !IsIdentity(c, Generator(c)) ==> MulSpec(c, d, Generator(c)) == Ok(r.value.pub)
    ensures OnCurve(c, Generator(c)) && !IsIdentity(c, Generator(c)) ==>
      (r.Ok? <==> MulSpec(c, d, Generator(c)).Ok?)
    ensures IsIdentity(c, Generator(c)) ==> r == Ok(KeyPair(Generator(c), d))
    ensures Mul(c, d, Generator(c)).Err? ==> r == Err(Mul(c, d, Generator(c)).error)
  {
    assert d % c.n == d;
    var q :- Mul(c, d, Generator(c));
    Ok(KeyPair(q, d))
  }

  /** One pass of the signing loop with nonce `k`: r = (k*G).x mod n and
      s = k^-1 * (e + d*r) mod n. */
  function SignStep(c: Params, d: int, e: nat, k: nat): (res: Result<Signature>)
    requires 1 <= k < c.n
    ensures res.Ok? ==> 0 <= res.value.r < c.n && 0 <= res.value.s < c.n
    ensures res.Ok? ==> Mul(c, k, Generator(c)).Ok? && res.value.r == Mul(c, k, Generator(c)).value.x % c.n
    ensures res.Ok? ==> Cong(res.value.s * k, e + d * res.value.r, c.n)
    ensures Mul(c, k, Generator(c)).Ok? ==> (res.Err? <==> !Coprime(k, c.n))
    ensures res.Err? && Mul(c, k, Generator(c)).Ok? ==> res.error == NoInverse
    ensures res.Err? ==> res.error in {NotOnCurve, NoInverse}
    ensures Mul(c, k, Generator(c)).Err? ==> res == Err(Mul(c, k, Generator(c)).error)
  {
    var kp :- Mul(c, k, Generator(c));
    var r := kp.x % c.n;
    var kinv :- ModInv(k, c.n);
    var s := (kinv * (e + d * r)) % c.n;
    assert Cong(s * k, e + d * r, c.n) by {
      assert kinv * (e + d * r) == (e + d * r) * kinv;
      CancelInverse(k, kinv, e + d * r, c.n);
    }
    Ok(Signature(r, s))
  }

  /** A signing step is determined by k*G and the inverse of k. */
  lemma SignStepParts(c: Params, d: int, e: nat, k: nat, kg: Point, kinv: int, r: int, s: int)
    requires 1 <= k < c.n
    requires Mul(c, k, Generator(c)) == Ok(kg) && ModInv(k, c.n) == Ok(kinv)
    requires r == kg.x % c.n && s == (kinv * (e + d * r)) % c.n
    ensures SignStep(c, d, e, k) == Ok(Signature(r, s))
  {
  }

  /** The loop test `r == 0 | s == 0`. In Python `|` binds tighter than
      `==` and comparisons chain, so it reads `r == (0 | s) and (0 | s) == 0`,
      and `0 | s` is `s`. */
  predicate RetryAsWritten(r: int, s: int) {
    var t := s;  // 0 | s
    r == t && t == 0
  }

  /** The retry test reads "both components are zero", not "either is". */
  lemma RetryAsWrittenMeansBothZero(r: int, s: int)
    ensures RetryAsWritten(r, s) <==> r == 0 && s == 0
  {
  }

  predicate NoncesInRange(c: Params, nonces: seq<nat>) {
    forall i :: 0 <= i < |nonces| ==> 1 <= nonces[i] < c.n
  }

  /** Nonce `i` is where the loop as written stops: its pair passes the
      retry test and every earlier nonce gave (0, 0). */
  predicate FirstAcceptedAsWritten(c: Params, d: int, e: nat, nonces: seq<nat>, i: int, sig: Signature)
    requires NoncesInRange(c, nonces) && 0 <= i < |nonces|
  {
    && SignStep(c, d, e, nonces[i]) == Ok(sig)
    && !RetryAsWritten(sig.r, sig.s)
    && forall j :: 0 <= j < i ==> SignStep(c, d, e, nonces[j]) == Ok(Signature(0, 0))
  }

  /** A nonce that gives (0, 0) in front moves the stopping point by one. */
  lemma FirstAcceptedAsWrittenShift(c: Params, d: int, e: nat, nonces: seq<nat>, i: int, sig: Signature)
    requires NoncesInRange(c, nonces) && 0 <= i < |nonces| - 1
    requires SignStep(c, d, e, nonces[0]) == Ok(Signature(0, 0))
    requires FirstAcceptedAsWritten(c, d, e, nonces[1..], i, sig)
    ensures FirstAcceptedAsWritten(c, d, e, nonces, i + 1, sig)
  {
    forall j | 0 <= j < i + 1
      ensures SignStep(c, d, e, nonces[j]) == Ok(Signature(0, 0))
    {
      if j > 0 { assert nonces[j] == nonces[1..][j - 1]; }
    }
  }

  /** The `while` loop of `generate_signature` from state `cur`, drawing
      nonces from the front of `nonces`: it stops at the first nonce whose
      pair passes the retry test, and runs out only when every nonce gave
      (0, 0). */
  function SignLoop(c: Params, d: int, e: nat, nonces: seq<nat>, cur: Signature): (res: Result<Signature>)
    requires NoncesInRange(c, nonces)
    ensures res.Ok? ==> !RetryAsWritten(res.value.r, res.value.s)
    ensures !RetryAsWritten(cur.r, cur.s) ==> res == Ok(cur)
    ensures RetryAsWritten(cur.r, cur.s) && res.Ok? ==>
      exists i :: 0 <= i < |nonces| && FirstAcceptedAsWritten(c, d, e, nonces, i, res.value)
    ensures RetryAsWritten(cur.r, cur.s) && res == Err(NoncesExhausted) ==>
      forall i :: 0 <= i < |nonces| ==> SignStep(c, d, e, nonces[i]) == Ok(Signature(0, 0))
    ensures (RetryAsWritten(cur.r, cur.s) &&
             forall i :: 0 <= i < |nonces| ==> SignStep(c, d, e, nonces[i]) == Ok(Signature(0, 0))) ==>
      res == Err(NoncesExhausted)
    decreases |nonces|
  {
    if !RetryAsWritten(cur.r, cur.s) then Ok(cur)
    else if |nonces| == 0 then Err(NoncesExhausted)
    else
      var next :- SignStep(c, d, e, nonces[0]);
      var res := SignLoop(c, d, e, nonces[1..], next);
      assert !RetryAsWritten(next.r, next.s) ==> FirstAcceptedAsWritten(c, d, e, nonces, 0, next);
      assert RetryAsWritten(next.r, next.s) && res.Ok? ==>
        exists i :: 0 <= i < |nonces| && FirstAcceptedAsWritten(c, d, e, nonces, i, res.value) by {
        if RetryAsWritten(next.r, next.s) && res.Ok? {
          var i :| 0 <= i < |nonces[1..]| && FirstAcceptedAsWritten(c, d, e, nonces[1..], i, res.value);
          FirstAcceptedAsWrittenShift(c, d, e, nonces, i, res.value);
        }
      }
      assert RetryAsWritten(next.r, next.s) && res == Err(NoncesExhausted) ==>
        forall i :: 0 <= i < |nonces| ==> SignStep(c, d, e, nonces[i]) == Ok(Signature(0, 0)) by {
        if RetryAsWritten(next.r, next.s) && res == Err(NoncesExhausted) {
          forall i | 0 <= i < |nonces|
            ensures SignStep(c, d, e, nonces[i]) == Ok(Signature(0, 0))
          {
            if i > 0 { assert nonces[i] == nonces[1..][i - 1]; }
          }
        }
      }
      res
  }

  /** `generate_signature` as written: the result is the pair of the first
      nonce whose pair is not (0, 0), so a pair with exactly one zero
      component is accepted; the supply runs out only if every nonce gave
      (0, 0). */
  function Sign(c: Params, d: int, e: nat, nonces: seq<nat>): (res: Result<Signature>)
    requires NoncesInRange(c, nonces)
    ensures res.Ok? ==> !(res.value.r == 0 && res.value.s == 0)
    ensures res.Ok? ==> 0 <= res.value.r < c.n && 0 <= res.value.s < c.n
    ensures res.Ok? ==> exists i :: 0 <= i < |nonces| && FirstAcceptedAsWritten(c, d, e, nonces, i, res.value)
    ensures res == Err(NoncesExhausted) <==>
      forall i :: 0 <= i < |nonces| ==> SignStep(c, d, e, nonces[i]) == Ok(Signature(0, 0))
  {
    SignLoop(c, d, e, nonces, Signature(0, 0))
  }

  /** Conversely, the first nonce the loop as written accepts gives the
      signature, wherever it sits in the supply. */
  lemma {:induction false} SignComplete(c: Params, d: int, e: nat, nonces: seq<nat>, i: int, sig: Signature)
    requires NoncesInRange(c, nonces) && 0 <= i < |nonces|
    requires FirstAcceptedAsWritten(c, d, e, nonces, i, sig)
    ensures Sign(c, d, e, nonces) == Ok(sig)
    decreases i
  {
    assert RetryAsWritten(0, 0);
    if i == 0 {
      assert SignLoop(c, d, e, nonces[1..], sig) == Ok(sig);
    } else {
      assert SignStep(c, d, e, nonces[0]) == Ok(Signature(0, 0));
      assert FirstAcceptedAsWritten(c, d, e, nonces[1..], i - 1, sig) by {
        forall j | 0 <= j < i - 1
          ensures SignStep(c, d, e, nonces[1..][j]) == Ok(Signature(0, 0))
        {
          assert nonces[1..][j] == nonces[j + 1];
        }
      }
      SignComplete(c, d, e, nonces[1..], i - 1, sig);
    }
  }

  /** A nonce whose step raises, after nonces that all gave (0, 0), ends
      signing with that step's error: the exception leaves the loop. */
  lemma {:induction false} SignStepErrorPropagates(c: Params, d: int, e: nat, nonces: seq<nat>, i: int)
    requires NoncesInRange(c, nonces) && 0 <= i < |nonces|
    requires SignStep(c, d, e, nonces[i]).Err?
    requires forall j :: 0 <= j < i ==> SignStep(c, d, e, nonces[j]) == Ok(Signature(0, 0))
    ensures Sign(c, d, e, nonces) == SignStep(c, d, e, nonces[i])
    decreases i
  {
    assert RetryAsWritten(0, 0);
    if i > 0 {
      assert SignStep(c, d, e, nonces[0]) == Ok(Signature(0, 0));
      forall j | 0 <= j < i - 1
        ensures SignStep(c, d, e, nonces[1..][j]) == Ok(Signature(0, 0))
      {
        assert nonces[1..][j] == nonces[j + 1];
      }
      assert nonces[1..][i - 1] == nonces[i];
      SignStepErrorPropagates(c, d, e, nonces[1..], i - 1);
    }
  }

  /** The first nonce decides the signature unless its pair is (0, 0),
      even when one of r and s is zero. */
  lemma SignFirstNonce(c: Params, d: int, e: nat, nonces: seq<nat>)
    requires NoncesInRange(c, nonces) && |nonces| > 0
    requires SignStep(c, d, e, nonces[0]).Ok?
    requires var sig := SignStep(c, d, e, nonces[0]).value; !(sig.r == 0 && sig.s == 0)
    ensures Sign(c, d, e, nonces) == SignStep(c, d, e, nonces[0])
  {
    var next := SignStep(c, d, e, nonces[0]).value;
    assert RetryAsWritten(0, 0);
    assert SignLoop(c, d, e, nonces[1..], next) == Ok(next);
    assert Sign(c, d, e, nonces) == SignLoop(c, d, e, nonces[1..], next);
  }

  /** A pair with a zero component, which the intended test rejects. */
  predicate Degenerate(sig: Signature) {
    sig.r == 0 || sig.s == 0
  }

  /** Nonce `i` is where the intended loop stops: its pair has no zero
      component, and every earlier nonce gave a pair with one. */
  predicate FirstAcceptedEither(c: Params, d: int, e: nat, nonces: seq<nat>, i: int, sig: Signature)
    requires NoncesInRange(c, nonces) && 0 <= i < |nonces|
  {
    && SignStep(c, d, e, nonces[i]) == Ok(sig)
    && !Degenerate(sig)
    && forall j :: 0 <= j < i ==>
         SignStep(c, d, e, nonces[j]).Ok? && Degenerate(SignStep(c, d, e, nonces[j]).value)
  }

  /** A rejected nonce in front moves the stopping point by one. */
  lemma FirstAcceptedEitherShift(c: Params, d: int, e: nat, nonces: seq<nat>, i: int, sig: Signature)
    requires NoncesInRange(c, nonces) && 0 <= i < |nonces| - 1
    requires SignStep(c, d, e, nonces[0]).Ok? && Degenerate(SignStep(c, d, e, nonces[0]).value)
    requires FirstAcceptedEither(c, d, e, nonces[1..], i, sig)
    ensures FirstAcceptedEither(c, d, e, nonces, i + 1, sig)
  {
    forall j | 0 <= j < i + 1
      ensures SignStep(c, d, e, nonces[j]).Ok? && Degenerate(SignStep(c, d, e, nonces[j]).value)
    {
      if j > 0 { assert nonces[j] == nonces[1..][j - 1]; }
    }
  }

  /** The evidently intended loop: retry while r or s is zero. */
  function SignLoopEither(c: Params, d: int, e: nat, nonces: seq<nat>, cur: Signature): (res: Result<Signature>)
    requires NoncesInRange(c, nonces)
    ensures res.Ok? ==> !Degenerate(res.value)
    ensures !Degenerate(cur) ==> res == Ok(cur)
    ensures Degenerate(cur) && res.Ok? ==>
      exists i :: 0 <= i < |nonces| && FirstAcceptedEither(c, d, e, nonces, i, res.value)
    ensures Degenerate(cur) && res == Err(NoncesExhausted) ==>
      forall i :: 0 <= i < |nonces| ==>
        SignStep(c, d, e, nonces[i]).Ok? && Degenerate(SignStep(c, d, e, nonces[i]).value)
    ensures (Degenerate(cur) &&
             forall i :: 0 <= i < |nonces| ==>
               SignStep(c, d, e, nonces[i]).Ok? && Degenerate(SignStep(c, d, e, nonces[i]).value)) ==>
      res == Err(NoncesExhausted)
    decreases |nonces|
  {
    if !Degenerate(cur) then Ok(cur)
    else if |nonces| == 0 then Err(NoncesExhausted)
    else
      var next :- SignStep(c, d, e, nonces[0]);
      var res := SignLoopEither(c, d, e, nonces[1..], next);
      assert !Degenerate(next) ==> FirstAcceptedEither(c, d, e, nonces, 0, next);
      assert Degenerate(next) && res.Ok? ==>
        exists i :: 0 <= i < |nonces| && FirstAcceptedEither(c, d, e, nonces, i, res.value) by {
        if Degenerate(next) && res.Ok? {
          var i :| 0 <= i < |nonces[1..]| && FirstAcceptedEither(c, d, e, nonces[1..], i, res.value);
          FirstAcceptedEitherShift(c, d, e, nonces, i, res.value);
        }
      }
      assert Degenerate(next) && res == Err(NoncesExhausted) ==>
        forall i :: 0 <= i < |nonces| ==>
          SignStep(c, d, e, nonces[i]).Ok? && Degenerate(SignStep(c, d, e, nonces[i]).value) by {
        if Degenerate(next) && res == Err(NoncesExhausted) {
          forall i | 0 <= i < |nonces|
            ensures SignStep(c, d, e, nonces[i]).Ok? && Degenerate(SignStep(c, d, e, nonces[i]).value)
          {
            if i > 0 { assert nonces[i] == nonces[1..][i - 1]; }
          }
        }
      }
      res
  }

  /** Signing with the corrected retry test: the pair of the first nonce
      whose components are both non-zero, so both lie in [1, n); the
      supply runs out only if every nonce gave a zero component. */
  function SignCorrected(c: Params, d: int, e: nat, nonces: seq<nat>): (res: Result<Signature>)
    requires NoncesInRange(c, nonces)
    ensures res.Ok? ==> 1 <= res.value.r < c.n && 1 <= res.value.s < c.n
    ensures res.Ok? ==> exists i :: 0 <= i < |nonces| && FirstAcceptedEither(c, d, e, nonces, i, res.value)
    ensures res == Err(NoncesExhausted) <==>
      forall i :: 0 <= i < |nonces| ==>
        SignStep(c, d, e, nonces[i]).Ok? && Degenerate(SignStep(c, d, e, nonces[i]).value)
  {
    SignLoopEither(c, d, e, nonces, Signature(0, 0))
  }

  /** The first nonce whose pair has no zero component gives the
      corrected signature, wherever it sits in the supply. */
  lemma {:induction false} SignCorrectedComplete(c: Params, d: int, e: nat, nonces: seq<nat>, i: int, sig: Signature)
    requires NoncesInRange(c, nonces) && 0 <= i < |nonces|
    requires FirstAcceptedEither(c, d, e, nonces, i, sig)
    ensures SignCorrected(c, d, e, nonces) == Ok(sig)
    decreases i
  {
    var start := Signature(0, 0);
    assert Degenerate(start);
    if i == 0 {
      assert SignLoopEither(c, d, e, nonces[1..], sig) == Ok(sig);
    } else {
      var next := SignStep(c, d, e, nonces[0]).value;
      assert SignStep(c, d, e, nonces[0]) == Ok(next) && Degenerate(next);
      assert FirstAcceptedEither(c, d, e, nonces[1..], i - 1, sig) by {
        forall j | 0 <= j < i - 1
          ensures SignStep(c, d, e, nonces[1..][j]).Ok? && Degenerate(SignStep(c, d, e, nonces[1..][j]).value)
        {
          assert nonces[1..][j] == nonces[j + 1];
        }
      }
      SignLoopEitherRestart(c, d, e, nonces[1..], next);
      SignCorrectedComplete(c, d, e, nonces[1..], i - 1, sig);
    }
  }

  /** A nonce whose step raises, after nonces that all gave a zero
      component, ends corrected signing with that step's error. */
  lemma {:induction false} SignCorrectedErrorPropagates(c: Params, d: int, e: nat, nonces: seq<nat>, i: int)
    requires NoncesInRange(c, nonces) && 0 <= i < |nonces|
    requires SignStep(c, d, e, nonces[i]).Err?
    requires forall j :: 0 <= j < i ==>
      SignStep(c, d, e, nonces[j]).Ok? && Degenerate(SignStep(c, d, e, nonces[j]).value)
    ensures SignCorrected(c, d, e, nonces) == SignStep(c, d, e, nonces[i])
    decreases i
  {
    assert Degenerate(Signature(0, 0));
    if i > 0 {
      var next := SignStep(c, d, e, nonces[0]).value;
      assert SignStep(c, d, e, nonces[0]) == Ok(next) && Degenerate(next);
      forall j | 0 <= j < i - 1
        ensures SignStep(c, d, e, nonces[1..][j]).Ok? && Degenerate(SignStep(c, d, e, nonces[1..][j]).value)
      {
        assert nonces[1..][j] == nonces[j + 1];
      }
      assert nonces[1..][i - 1] == nonces[i];
      SignLoopEitherRestart(c, d, e, nonces[1..], next);
      SignCorrectedErrorPropagates(c, d, e, nonces[1..], i - 1);
    }
  }

  /** Every rejected pair leaves the corrected loop where (0, 0) would:
      only the test on the pair matters, not the pair itself. */
  lemma SignLoopEitherRestart(c: Params, d: int, e: nat, nonces: seq<nat>, cur: Signature)
    requires NoncesInRange(c, nonces) && Degenerate(cur)
    ensures SignLoopEither(c, d, e, nonces, cur) == SignLoopEither(c, d, e, nonces, Signature(0, 0))
  {
  }

  /** The scalars of `verify_signature`: w = s^-1 mod n, u1 = e*w mod n,
      u2 = r*w mod n, i.e. u1 = e/s and u2 = r/s modulo n. */
  function VerifyScalars(c: Params, e: nat, r: int, s: nat): (res: Result<(nat, nat)>)
    ensures res.Err? <==> !Coprime(s, c.n)
    ensures res.Err? ==> res.error == NoInverse
    ensures res.Ok? ==> res.value.0 < c.n && res.value.1 < c.n
    ensures res.Ok? ==> Cong(res.value.0 * s, e, c.n) && Cong(res.value.1 * s, r, c.n)
  {
    var w :- ModInv(s, c.n);
    var u1 := (e * w) % c.n;
    var u2 := (r * w) % c.n;
    CancelInverse(s, w, e, c.n);
    CancelInverse(s, w, r, c.n);
    Ok((u1, u2))
  }

  /** `verify_signature`: accept iff the x-coordinate of u1*G + u2*Q
      matches r modulo n. A non-invertible `s` is an error, not a
      rejection. */
  function Verify(c: Params, q: Point, e: nat, r: int, s: nat): (res: Result<bool>)
    ensures !Coprime(s, c.n) ==> res == Err(NoInverse)
    ensures s % c.n == 0 ==> res == Err(NoInverse)
    ensures Coprime(s, c.n) && !OnCurve(c, Generator(c)) ==> res == Err(NotOnCurve)
    ensures (Coprime(s, c.n) && !OnCurve(c, q) &&
             Mul(c, VerifyScalars(c, e, r, s).value.0, Generator(c)).Ok?) ==> res == Err(NotOnCurve)
    ensures !OnCurve(c, q) || !OnCurve(c, Generator(c)) ==> res.Err?
    ensures res.Err? ==> res.error in {NotOnCurve, NoInverse}
  {
    assert s % c.n == 0 ==> !Coprime(s, c.n) by {
      if s % c.n == 0 { ZeroNotCoprime(s, c.n); }
    }
    var u :- VerifyScalars(c, e, r, s);
    var m1 :- Mul(c, u.0, Generator(c));
    var m2 :- Mul(c, u.1, q);
    var v :- AddPoints(c, m1, m2);
    Ok(v.x % c.n % c.n == r % c.n)
  }

  /** The decision of `verify_signature`: once the scalars, both scalar
      multiplications and the final addition succeed, the signature is
      accepted exactly when the x-coordinate of u1*G + u2*Q agrees with r
      modulo n. */
  lemma VerifyDecision(c: Params, q: Point, e: nat, r: int, s: nat,
                       u1: nat, u2: nat, m1: Point, m2: Point, v: Point)
    requires VerifyScalars(c, e, r, s) == Ok((u1, u2))
    requires Mul(c, u1, Generator(c)) == Ok(m1) && Mul(c, u2, q) == Ok(m2)
    requires AddPoints(c, m1, m2) == Ok(v)
    ensures Verify(c, q, e, r, s) == Ok(v.x % c.n == r % c.n)
  {
    ModUnique(v.x % c.n, c.n, 0, v.x % c.n);
  }

  /** An exception inside the point arithmetic of `verify_signature`
      propagates: the first of the two multiplications and the addition
      that fails decides the error, and no answer is given. */
  lemma VerifyErrorPropagates(c: Params, q: Point, e: nat, r: int, s: nat, u1: nat, u2: nat)
    requires VerifyScalars(c, e, r, s) == Ok((u1, u2))
    ensures Mul(c, u1, Generator(c)).Err? ==>
      Verify(c, q, e, r, s) == Err(Mul(c, u1, Generator(c)).error)
    ensures Mul(c, u1, Generator(c)).Ok? && Mul(c, u2, q).Err? ==>
      Verify(c, q, e, r, s) == Err(Mul(c, u2, q).error)
    ensures (Mul(c, u1, Generator(c)).Ok? && Mul(c, u2, q).Ok? &&
             AddPoints(c, Mul(c, u1, Generator(c)).value, Mul(c, u2, q).value).Err?) ==>
      Verify(c, q, e, r, s) == Err(AddPoints(c, Mul(c, u1, Generator(c)).value, Mul(c, u2, q).value).error)
  {
  }

  /** The algebra behind verify(sign(...)): the verifier's scalars satisfy
      u1 + u2*d == k modulo n, so u1*G + u2*Q names the signer's k*G once
      Q = d*G. (That the curve code then yields the same point needs the
      group laws, which are not modelled.) */
  lemma VerifyRecoversNonce(c: Params, d: int, e: nat, k: nat, sig: Signature, u1: nat, u2: nat)
    requires 1 <= k < c.n
    requires SignStep(c, d, e, k) == Ok(sig)
    requires VerifyScalars(c, e, sig.r, sig.s) == Ok((u1, u2))
    ensures Cong(u1 + u2 * d, k, c.n)
  {
    var n, s := c.n, sig.s;
    var w := ModInv(s, n).value;
    RecoverTimesS(u1, u2, d, e, sig.r, s, k, n);
    CongCancel(u1 + u2 * d, k, s, w, n);
  }

  /** The congruence behind `VerifyRecoversNonce`, before cancelling s. */
  lemma RecoverTimesS(u1: int, u2: int, d: int, e: int, r: int, s: int, k: int, n: int)
    requires n > 0
    requires Cong(u1 * s, e, n) && Cong(u2 * s, r, n) && Cong(s * k, e + d * r, n)
    ensures Cong((u1 + u2 * d) * s, k * s, n)
  {
    var a, b := u1 * s, u2 * s;
    CongMul(b, r, d, n);
    CongAdd(a, e, b * d, n);
    CongAdd(b * d, r * d, e, n);
    RecoverRegroup(u1, u2, d, s, e, r, k);
  }

  lemma RecoverRegroup(u1: int, u2: int, d: int, s: int, e: int, r: int, k: int)
    ensures (u1 + u2 * d) * s == u1 * s + (u2 * s) * d
    ensures e + d * r == r * d + e && s * k == k * s
  { }

  /** Verification depends on the digest and on r only modulo n. */
  lemma VerifyDependsOnResidues(c: Params, q: Point, e: nat, r: int, s: nat)
    ensures Verify(c, q, e, r, s) == Verify(c, q, e % c.n, r % c.n, s)
  {
    var n := c.n;
    if Coprime(s, n) {
      var w := ModInv(s, n).value;
      CongReduce(e, n);
      CongMul(e % n, e, w, n);
      CongReduce(r, n);
      CongMul(r % n, r, w, n);
      assert VerifyScalars(c, e, r, s) == VerifyScalars(c, e % n, r % n, s);
    }
  }
}

=== FILE: hex.dfy ===
/** `hex2int`: drop every ':' and whitespace character, then read the
    remaining text as a base-16 number. */
module Hex {
  import opened Results
  import opened ModArith

  predicate IsHexDigit(ch: char) {
    ('0' <= ch <= '9') || ('a' <= ch <= 'f') || ('A' <= ch <= 'F')
  }

  function DigitValue(ch: char): (r: nat)
    requires IsHexDigit(ch)
    ensures r < 16
  {
    if '0' <= ch <= '9' then ch as int - '0' as int
    else if 'a' <= ch <= 'f' then ch as int - 'a' as int + 10
    else ch as int - 'A' as int + 10
  }

  /** The characters Python's `str.split()` treats as whitespace. */
  predicate IsSpace(ch: char) {
    || ch == ' ' || ('\t' <= ch <= '\r') || ('\U{001C}' <= ch <= '\U{001F}')
    || ch == '\U{0085}' || ch == '\U{00A0}' || ch == '\U{1680}'
    || ('\U{2000}' <= ch <= '\U{200A}') || ch == '\U{2028}' || ch == '\U{2029}'
    || ch == '\U{202F}' || ch == '\U{205F}' || ch == '\U{3000}'
  }

  /** Removed by `replace(":", "")` and by joining the `split()` pieces. */
  predicate IsSeparator(ch: char) {
    ch == ':' || IsSpace(ch)
  }

  /** The text left after the separators are removed, in order. */
  function Strip(s: string): string {
    if |s| == 0 then []
    else (if IsSeparator(s[0]) then [] else [s[0]]) + Strip(s[1..])
  }

  predicate AllHex(ds: string) {
    forall i :: 0 <= i < |ds| ==> IsHexDigit(ds[i])
  }

  /** Big-endian base-16 value of a digit string. */
  function HexValue(ds: string): (r: nat)
    requires AllHex(ds)
    ensures r < Pow(16, |ds|)
  {
    if |ds| == 0 then 0
    else 16 * HexValue(ds[..|ds| - 1]) + DigitValue(ds[|ds| - 1])
  }

  /** `hex2int`. `int("", 16)` raises, and so does a non-hex character. */
  function Hex2Int(s: string): (r: Result<nat>)
    ensures r.Err? ==> r.error == InvalidHex
    ensures r.Ok? <==> 0 < |Strip(s)| && AllHex(Strip(s))
    ensures r.Ok? ==> r.value < Pow(16, |Strip(s)|)
  {
    var ds := Strip(s);
    if |ds| == 0 || !AllHex(ds) then Err(InvalidHex) else Ok(HexValue(ds))
  }

  /** The lower-case digit for a value below 16. */
  function LowerDigit(d: nat): (r: char)
    requires d < 16
    ensures IsHexDigit(r) && DigitValue(r) == d && !IsSeparator(r)
  {
    if d < 10 then ('0' as int + d) as char else ('a' as int + d - 10) as char
  }

  /** Lower-case rendering of `v` with exactly `width` hex digits, the
      shape of `hexdigest()`; only `v mod 16^width` survives. */
  function HexDigest(v: nat, width: nat): (r: string)
    ensures |r| == width
    ensures AllHex(r)
    ensures forall i :: 0 <= i < |r| ==> !IsSeparator(r[i])
  {
    if width == 0 then []
    else HexDigest(v / 16, width - 1) + [LowerDigit(v % 16)]
  }

  /** Separators may appear anywhere: dropping them commutes with
      concatenation. */
  lemma {:induction false} StripConcat(a: string, b: string)
    ensures Strip(a + b) == Strip(a) + Strip(b)
    decreases |a|
  {
    if |a| > 0 {
      var h := if IsSeparator(a[0]) then [] else [a[0]];
      assert (a + b)[0] == a[0];
      assert (a + b)[1..] == a[1..] + b;
      assert Strip(a + b) == h + Strip(a[1..] + b);
      StripConcat(a[1..], b);
      assert Strip(a) == h + Strip(a[1..]);
      assert h + (Strip(a[1..]) + Strip(b)) == (h + Strip(a[1..])) + Strip(b);
    } else {
      assert a + b == b;
    }
  }

  /** Inserting a ':' or a whitespace character anywhere leaves the value
      (or the failure) unchanged. */
  lemma SeparatorIgnored(a: string, ch: char, b: string)
    requires IsSeparator(ch)
    ensures Hex2Int(a + [ch] + b) == Hex2Int(a + b)
  {
    StripConcat(a + [ch], b);
    StripConcat(a, [ch]);
    StripConcat(a, b);
    assert [ch][1..] == [];
    assert Strip([ch]) == [];
    assert Strip(a + [ch] + b) == Strip(a + b);
  }

  /** A separator-free string strips to itself. */
  lemma {:induction false} StripNoSeparators(s: string)
    requires forall i :: 0 <= i < |s| ==> !IsSeparator(s[i])
    ensures Strip(s) == s
    decreases |s|
  {
    if |s| > 0 {
      StripNoSeparators(s[1..]);
    }
  }

  /** The rendered digits read back as the value modulo 16^width. */
  lemma {:induction false} HexDigestValue(v: nat, width: nat)
    ensures HexValue(HexDigest(v, width)) == v % Pow(16, width)
    decreases width
  {
    if width > 0 {
      HexDigestValue(v / 16, width - 1);
      var r := HexDigest(v, width);
      assert r[..width - 1] == HexDigest(v / 16, width - 1);
      assert r[width - 1] == LowerDigit(v % 16);
      ModPow16(v, width);
    } else {
      assert v % 1 == 0;
    }
  }

  /** (v mod 16^(w-1)) * 16 + v mod 16 == v mod 16^w, written for the
      digit-by-digit reading. */
  lemma ModPow16(v: nat, width: nat)
    requires width > 0
    ensures 16 * ((v / 16) % Pow(16, width - 1)) + v % 16 == v % Pow(16, width)
  {
    var m := Pow(16, width - 1);
    var q := (v / 16) / m;
    var r := (v / 16) % m;
    assert v / 16 == m * q + r;
    assert v == Pow(16, width) * q + (16 * r + v % 16);
    assert 16 * r + v % 16 < Pow(16, width);
    ModUnique(v, Pow(16, width), q, 16 * r + v % 16);
  }

  /** Reading back a rendered digest gives the value back, whatever the
      width, as long as the value fits. */
  lemma Hex2IntOfHexDigest(v: nat, width: nat)
    requires width >= 1 && v < Pow(16, width)
    ensures Hex2Int(HexDigest(v, width)) == Ok(v)
  {
    HexDigestValue(v, width);
    StripNoSeparators(HexDigest(v, width));
    ModUnique(v, Pow(16, width), 0, v);
  }

  /** Text made only of separators leaves no digits, which `int` rejects. */
  lemma {:induction false} Hex2IntNoDigits(s: string)
    requires forall i :: 0 <= i < |s| ==> IsSeparator(s[i])
    ensures Strip(s) == []
    ensures Hex2Int(s) == Err(InvalidHex)
    decreases |s|
  {
    if |s| > 0 {
      Hex2IntNoDigits(s[1..]);
    }
  }

  /** Big-endian reading: one more digit at the end multiplies the value
      read so far by 16 and adds the digit. */
  lemma Hex2IntAppendDigit(s: string, d: char)
    requires Hex2Int(s).Ok? && IsHexDigit(d)
    ensures Hex2Int(s + [d]) == Ok(16 * Hex2Int(s).value + DigitValue(d))
  {
    StripConcat(s, [d]);
    assert [d][1..] == [];
    assert Strip([d]) == [d];
    var ds := Strip(s) + [d];
    assert ds[..|ds| - 1] == Strip(s);
  }

  /** A single hex digit reads as its value. */
  lemma Hex2IntOneDigit(d: char)
    requires IsHexDigit(d)
    ensures Hex2Int([d]) == Ok(DigitValue(d))
  {
    assert [d][1..] == [];
    assert Strip([d]) == [d];
    assert [d][..0] == [];
  }

  /** Stripping keeps exactly the non-separator characters: the stripped
      text is all hex digits iff every character is a hex digit or a
      separator, and it is non-empty iff some character is not a
      separator. */
  lemma {:induction false} StripCharacters(s: string)
    ensures AllHex(Strip(s)) <==> forall i :: 0 <= i < |s| ==> IsHexDigit(s[i]) || IsSeparator(s[i])
    ensures |Strip(s)| > 0 <==> exists i :: 0 <= i < |s| && !IsSeparator(s[i])
    decreases |s|
  {
    if |s| > 0 {
      StripCharacters(s[1..]);
      var h := if IsSeparator(s[0]) then [] else [s[0]];
      var t := Strip(s[1..]);
      assert Strip(s) == h + t;
      AllHexConcat(h, t);
      forall i | 0 <= i < |s[1..]| ensures s[1..][i] == s[i + 1] { }
      if forall i :: 0 <= i < |s| ==> IsHexDigit(s[i]) || IsSeparator(s[i]) {
        assert forall i :: 0 <= i < |s[1..]| ==> IsHexDigit(s[1..][i]) || IsSeparator(s[1..][i]);
      }
      if !(forall i :: 0 <= i < |s| ==> IsHexDigit(s[i]) || IsSeparator(s[i])) {
        var i :| 0 <= i < |s| && !(IsHexDigit(s[i]) || IsSeparator(s[i]));
        if i > 0 { assert s[1..][i - 1] == s[i]; }
      }
      if exists i :: 0 <= i < |s| && !IsSeparator(s[i]) {
        var i :| 0 <= i < |s| && !IsSeparator(s[i]);
        if i > 0 { assert s[1..][i - 1] == s[i]; }
      }
    }
  }

  lemma AllHexConcat(a: string, b: string)
    ensures AllHex(a + b) <==> AllHex(a) && AllHex(b)
  {
    if AllHex(a + b) {
      forall i | 0 <= i < |a| ensures IsHexDigit(a[i]) {
        assert (a + b)[i] == a[i];
      }
      forall i | 0 <= i < |b| ensures IsHexDigit(b[i]) {
        assert (a + b)[i + |a|] == b[i];
      }
    }
  }

  /** `hex2int` succeeds exactly on text made of hex digits, ':' and
      whitespace that holds at least one digit. */
  lemma Hex2IntSucceeds(s: string)
    ensures Hex2Int(s).Ok? <==>
      (forall i :: 0 <= i < |s| ==> IsHexDigit(s[i]) || IsSeparator(s[i])) &&
      (exists i :: 0 <= i < |s| && IsHexDigit(s[i]))
  {
    StripCharacters(s);
    if forall i :: 0 <= i < |s| ==> IsHexDigit(s[i]) || IsSeparator(s[i]) {
      if exists i :: 0 <= i < |s| && !IsSeparator(s[i]) {
        var i :| 0 <= i < |s| && !IsSeparator(s[i]);
        assert IsHexDigit(s[i]);
      }
      if exists i :: 0 <= i < |s| && IsHexDigit(s[i]) {
        var i :| 0 <= i < |s| && IsHexDigit(s[i]);
        assert !IsSeparator(s[i]);
      }
    }
  }

  lemma Hex2IntAB()
    ensures Hex2Int("AB") == Ok(0xAB)
  {
    Hex2IntOneDigit('A');
    assert "A" + ['B'] == "AB";
    Hex2IntAppendDigit("A", 'B');
  }

  lemma Hex2IntABc()
    ensures Hex2Int("ABc") == Ok(0xABC)
  {
    Hex2IntAB();
    assert "AB" + ['c'] == "ABc";
    Hex2IntAppendDigit("AB", 'c');
  }

  lemma Hex2IntABcd()
    ensures Hex2Int("ABcd") == Ok(0xABCD)
  {
    Hex2IntABc();
    assert "ABc" + ['d'] == "ABcd";
    Hex2IntAppendDigit("ABc", 'd');
  }

  /** Mixed case and a ':' separator: "AB:cd" reads as 0xABCD. */
  lemma Hex2IntMixedCase()
    ensures Hex2Int("AB:cd") == Ok(0xABCD)
  {
    Hex2IntABcd();
    assert "AB" + [':'] + "cd" == "AB:cd";
    assert "AB" + "cd" == "ABcd";
    SeparatorIgnored("AB", ':', "cd");
  }
}

=== FILE: modarith.dfy ===
/** Modular arithmetic under the curve code: divisibility, congruence
    lemmas, an extended Euclid, and the `mod_inv` / `mod_div` helpers of
    ECDSA.py. Dafny's `%` with a positive divisor is Euclidean, which is
    also what Python's `%` computes for a positive modulus. */
module ModArith {
  import opened Results

  /** `base` raised to the power `e`. */
  function Pow(base: nat, e: nat): (r: nat)
    ensures base >= 1 ==> r >= 1
  {
    if e == 0 then 1 else base * Pow(base, e - 1)
  }

  /** `d` is a non-zero divisor of `x`. */
  predicate Divides(d: int, x: int) {
    d != 0 && x % d == 0
  }

  /** No integer above one divides both `a` and `m`, i.e. gcd(a, m) == 1
      (for `m > 1`). */
  ghost predicate Coprime(a: int, m: int) {
    forall d :: 1 < d && Divides(d, a) ==> !Divides(d, m)
  }

  /** `x` and `y` are congruent modulo `m`. */
  predicate Cong(x: int, y: int, m: int)
    requires m > 0
  {
    x % m == y % m
  }

  // ---------------------------------------------------------------------
  // Euclidean division facts

  /** The quotient/remainder decomposition determines the remainder. */
  lemma ModUnique(a: int, m: int, q: int, r: int)
    requires m > 0 && a == m * q + r && 0 <= r < m
    ensures a % m == r && a / m == q
  {
    var q', r' := a / m, a % m;
    assert m * (q - q') == r' - r;
    if q > q' {
      MulAtLeast(m, q - q');
    } else if q < q' {
      MulAtLeast(m, q' - q);
    }
  }

  lemma MulAtLeast(m: int, t: int)
    requires m > 0 && t >= 1
    ensures m * t >= m
  {
  }

  /** Adding a multiple of the modulus does not change the remainder. */
  lemma ModAddMultiple(x: int, k: int, m: int)
    requires m > 0
    ensures (x + m * k) % m == x % m
  {
    ModUnique(x + m * k, m, x / m + k, x % m);
  }

  /** Multiples of `d` are divisible by `d`. */
  lemma DividesMultiple(d: int, k: int)
    requires d > 0
    ensures Divides(d, d * k)
  {
    ModUnique(d * k, d, k, 0);
  }

  /** A common divisor of `u` and `v` divides every integer combination. */
  lemma DividesLinear(d: int, u: int, v: int, c1: int, c2: int)
    requires d > 0 && Divides(d, u) && Divides(d, v)
    ensures Divides(d, c1 * u + c2 * v)
  {
    var ku, kv := u / d, v / d;
    assert u == d * ku;
    assert v == d * kv;
    assert c1 * u + c2 * v == d * (c1 * ku + c2 * kv);
    DividesMultiple(d, c1 * ku + c2 * kv);
  }

  /** Reducing a summand does not change the remainder of a sum. */
  lemma CongAdd(x: int, y: int, z: int, m: int)
    requires m > 0 && Cong(x, y, m)
    ensures Cong(x + z, y + z, m)
  {
    assert x + z == (x % m + z) + m * (x / m);
    assert y + z == (y % m + z) + m * (y / m);
    ModAddMultiple(x % m + z, x / m, m);
    ModAddMultiple(y % m + z, y / m, m);
  }

  /** Reducing a factor does not change the remainder of a product. */
  lemma CongMul(x: int, y: int, z: int, m: int)
    requires m > 0 && Cong(x, y, m)
    ensures Cong(x * z, y * z, m)
  {
    SplitProduct(x, z, m);
    SplitProduct(y, z, m);
    ModAddMultiple((x % m) * z, (x / m) * z, m);
    ModAddMultiple((y % m) * z, (y / m) * z, m);
  }

  /** A product split along the quotient and remainder of one factor. */
  lemma SplitProduct(x: int, z: int, m: int)
    requires m > 0
    ensures x * z == (x % m) * z + m * ((x / m) * z)
  {
    var q, r := x / m, x % m;
    assert x == m * q + r;
    assert (m * q + r) * z == r * z + m * (q * z);
  }

  /** Subtracting a reduced value is congruent to subtracting the value. */
  lemma CongSubReduce(x: int, z: int, m: int)
    requires m > 0
    ensures Cong(x - z % m, x - z, m)
  {
    assert x - z % m == (x - z) + m * (z / m);
    ModAddMultiple(x - z, z / m, m);
  }

  /** Every value is congruent to its own remainder. */
  lemma CongReduce(x: int, m: int)
    requires m > 0
    ensures Cong(x % m, x, m)
  {
    ModUnique(x % m, m, 0, x % m);
  }

  // ---------------------------------------------------------------------
  // Extended Euclid (stands in for the `egcd` package)

  lemma BezoutStep(a: int, b: int, q: int, r: int, x: int, y: int, g: int)
    requires a == b * q + r && b * x + r * y == g
    ensures a * y + b * (x - q * y) == g
  {
  }

  /** Extended Euclid: returns (g, x, y) with a*x + b*y == g, where g is a
      common divisor of `a` and `b` (zero only when both are). */
  function Egcd(a: nat, b: nat): (r: (nat, int, int))
    ensures a * r.1 + b * r.2 == r.0
    ensures r.0 == 0 <==> a == 0 && b == 0
    ensures r.0 > 0 ==> Divides(r.0, a) && Divides(r.0, b)
    decreases b
  {
    if b == 0 then
      assert a > 0 ==> Divides(a, a) by {
        if a > 0 { DividesMultiple(a, 1); }
      }
      (a, 1, 0)
    else
      var t := Egcd(b, a % b);
      var g, x, y := t.0, t.1, t.2;
      BezoutStep(a, b, a / b, a % b, x, y, g);
      assert Divides(g, a) by {
        DividesLinear(g, b, a % b, a / b, 1);
      }
      (g, y, x - (a / b) * y)
  }

  /** The divisor Egcd returns is the greatest one: every common divisor of
      the inputs divides it. */
  lemma EgcdIsGreatest(a: nat, b: nat, d: int)
    requires d > 0 && Divides(d, a) && Divides(d, b)
    ensures Divides(d, Egcd(a, b).0)
  {
    var r := Egcd(a, b);
    DividesLinear(d, a, b, r.1, r.2);
  }

  // ---------------------------------------------------------------------
  // mod_inv and mod_div

  /** `mod_inv(a, m)`: the inverse of `a` modulo `m`, an error when
      gcd(a, m) is not one. */
  function ModInv(a: nat, m: int): (r: Result<int>)
    requires m > 1
    ensures r.Err? <==> !Coprime(a, m)
    ensures r.Err? ==> r.error == NoInverse
    ensures r.Ok? ==> 0 <= r.value < m && (a * r.value) % m == 1
  {
    var t := Egcd(a, m);
    var g, x, y := t.0, t.1, t.2;
    if g != 1 then
      assert !Coprime(a, m) by {
        assert 1 < g && Divides(g, a) && Divides(g, m);
      }
      Err(NoInverse)
    else
      InverseFromBezout(a, m, x, y);
      CoprimeFromBezout(a, m, x, y);
      Ok(x % m)
  }

  lemma InverseFromBezout(a: int, m: int, x: int, y: int)
    requires m > 1 && a * x + m * y == 1
    ensures (a * (x % m)) % m == 1
  {
    CongReduce(x, m);
    CongMul(x % m, x, a, m);
    assert a * (x % m) == (x % m) * a && a * x == x * a;
    assert a * x == 1 + m * (-y);
    ModAddMultiple(1, -y, m);
    ModUnique(1, m, 0, 1);
  }

  lemma CoprimeFromBezout(a: int, m: int, x: int, y: int)
    requires m > 1 && a * x + m * y == 1
    ensures Coprime(a, m)
  {
    forall d | 1 < d && Divides(d, a)
      ensures !Divides(d, m)
    {
      if Divides(d, m) {
        DividesLinear(d, a, m, x, y);
        ModUnique(1, d, 0, 1);
      }
    }
  }

  /** `mod_div(a, b)` modulo `p`: `a` times the inverse of `b % p`. */
  function ModDiv(a: int, b: int, p: int): (r: Result<int>)
    requires p > 1
    ensures r.Err? <==> !Coprime(b % p, p)
    ensures r.Err? ==> r.error == NoInverse
    ensures r.Ok? ==> 0 <= r.value < p && Cong(r.value * b, a, p)
  {
    var inv :- ModInv(b % p, p);
    var q := ((a % p) * inv) % p;
    assert Cong(q * b, a, p) by {
      QuotientTimesDivisor(a, b, p, inv);
    }
    Ok(q)
  }

  lemma QuotientTimesDivisor(a: int, b: int, p: int, inv: int)
    requires p > 1 && ((b % p) * inv) % p == 1
    ensures Cong(((a % p) * inv) % p * b, a, p)
  {
    var q := ((a % p) * inv) % p;
    // q * b == (a % p) * (inv * b) modulo p, and inv * b == 1 modulo p
    CongReduce((a % p) * inv, p);
    CongMul(q, (a % p) * inv, b, p);
    assert (a % p) * inv * b == (a % p) * (inv * b);
    CongReduce(b, p);
    CongMul(b % p, b, inv, p);
    assert (b % p) * inv == inv * (b % p) && b * inv == inv * b;
    ModUnique(1, p, 0, 1);
    assert Cong(inv * b, 1, p);
    CongMul(inv * b, 1, a % p, p);
    assert (inv * b) * (a % p) == (a % p) * (inv * b);
    CongReduce(a, p);
  }

  /** Zero (or any multiple of the modulus) has no inverse. */
  lemma ZeroNotCoprime(b: int, p: int)
    requires p > 1 && b % p == 0
    ensures !Coprime(b, p)
  {
    DividesMultiple(p, 1);
    assert Divides(p, b) && Divides(p, p);
  }

  /** Multiplying a reduced quotient x * inv back by `a`, where inv is the
      inverse of `a`, gives `x` again modulo m. */
  lemma CancelInverse(a: int, inv: int, x: int, m: int)
    requires m > 1 && (a * inv) % m == 1
    ensures Cong(((x * inv) % m) * a, x, m)
  {
    CongReduce(x * inv, m);
    CongMul((x * inv) % m, x * inv, a, m);
    assert (x * inv) * a == x * (a * inv);
    ModUnique(1, m, 0, 1);
    CongReduce(a * inv, m);
    assert Cong(a * inv, 1, m);
    CongMul(a * inv, 1, x, m);
    assert (a * inv) * x == x * (a * inv);
  }

  /** A unit can be cancelled from both sides of a congruence. */
  lemma CongCancel(x: int, y: int, a: int, inv: int, m: int)
    requires m > 1 && (a * inv) % m == 1 && Cong(x * a, y * a, m)
    ensures Cong(x, y, m)
  {
    var u := a * inv;
    CongMul(x * a, y * a, inv, m);
    MulRegroup(x, a, inv);
    MulRegroup(y, a, inv);
    ModUnique(1, m, 0, 1);
    CongMul(u, 1, x, m);
    CongMul(u, 1, y, m);
  }

  /** Regrouping a product of three factors. */
  lemma MulRegroup(x: int, a: int, b: int)
    ensures (x * a) * b == (a * b) * x
  {
  }
}

=== FILE: results.dfy ===
/** Failure-compatible result type standing in for the exceptions the
    signature code raises. Every `raise Exception(...)` of ECDSA.py
    becomes an `Err` carrying one of the error kinds below. */
module Results {

  /** The failures the curve and signature code can report. */
  datatype Error =
    | NotOnCurve       // a point operand fails the curve equation
    | NoInverse        // a modular inverse was requested for a non-unit
    | InvalidHex       // the digest text holds no digits, or a non-hex one
    | NoncesExhausted  // the supplied nonce sequence ran out (randomness is a parameter)

  datatype Result<+T> = Ok(value: T) | Err(error: Error) {

    predicate IsFailure() {
      Err?
    }

    function PropagateFailure<U>(): Result<U>
      requires Err?
    {
      Err(error)
    }

    function Extract(): T
      requires Ok?
    {
      value
    }
  }
}

=== FILE: scalarmul.dfy ===
/** `mul_point`: MSB-first double-and-add over the binary digits of the
    scalar, starting from the sentinel, with the early returns of
    ECDSA.py (operand off the curve, operand is the sentinel, scalar a
    multiple of the generator order). */
module ScalarMul {
  import opened Results
  import opened ModArith
  import opened Curve

  /** The digits of `bin(k)[2:]`, most significant first, as booleans. */
  function Bits(k: nat): (r: seq<bool>)
    ensures |r| >= 1
    decreases k
  {
    if k < 2 then [k == 1] else Bits(k / 2) + [k % 2 == 1]
  }

  /** Big-endian value of a digit string. */
  function FromBits(bs: seq<bool>): nat {
    if |bs| == 0 then 0
    else 2 * FromBits(bs[..|bs| - 1]) + (if bs[|bs| - 1] then 1 else 0)
  }

  /** `Bits(k)` is the binary representation of `k` without leading zeros:
      it reads back as `k`, starts with a one for positive `k`, and its
      length is the bit length of `k`. */
  lemma {:induction false} BitsRoundTrip(k: nat)
    ensures FromBits(Bits(k)) == k
    ensures k >= 1 ==> Bits(k)[0]
    ensures k >= 1 ==> Pow(2, |Bits(k)| - 1) <= k < Pow(2, |Bits(k)|)
    decreases k
  {
    if k >= 2 {
      BitsRoundTrip(k / 2);
      var bs := Bits(k);
      assert bs[..|bs| - 1] == Bits(k / 2);
    }
  }

  /** The recursive double-and-add specification:
      Mul(0) = O, Mul(k) = D + D (+ P when k is odd) with D = Mul(k / 2). */
  function MulSpec(c: Params, k: nat, pt: Point): (r: Result<Point>)
    ensures r.Err? ==> r.error in {NotOnCurve, NoInverse}
    decreases k
  {
    if k == 0 then Ok(Identity(c))
    else
      var half :- MulSpec(c, k / 2, pt);
      var twice :- AddPoints(c, half, half);
      if k % 2 == 1 then AddPoints(c, twice, pt) else Ok(twice)
  }

  /** One iteration of the loop: double, then add the operand on a one. */
  function Step(c: Params, acc: Point, bit: bool, pt: Point): Result<Point> {
    var twice :- AddPoints(c, acc, acc);
    if bit then AddPoints(c, twice, pt) else Ok(twice)
  }

  /** `mul_point` as a function, for the signature code. */
  function Mul(c: Params, k: nat, pt: Point): (r: Result<Point>)
    ensures !OnCurve(c, pt) ==> r == Err(NotOnCurve)
    ensures r.Err? ==> r.error in {NotOnCurve, NoInverse}
  {
    if !OnCurve(c, pt) then Err(NotOnCurve)
    else if pt.x == c.p then Ok(pt)
    else if k % c.n == 0 then Ok(pt)
    else MulSpec(c, k, pt)
  }

  /** Appending a digit doubles the value and adds the digit. */
  lemma FromBitsSnoc(bs: seq<bool>, i: nat)
    requires i < |bs|
    ensures FromBits(bs[..i + 1]) == 2 * FromBits(bs[..i]) + (if bs[i] then 1 else 0)
  {
    assert bs[..i + 1][..i] == bs[..i];
  }

  /** Consuming one more digit is one `Step` of the recursive spec. */
  lemma MulSpecStep(c: Params, k: nat, v: nat, bit: bool, pt: Point, acc: Point)
    requires k == 2 * v + (if bit then 1 else 0)
    requires OnCurve(c, pt) && MulSpec(c, v, pt) == Ok(acc)
    ensures MulSpec(c, k, pt) == Step(c, acc, bit, pt)
  {
    if k == 0 {
      assert acc == Identity(c);
      assert AddPoints(c, acc, acc) == Ok(acc);
    } else {
      assert k / 2 == v;
    }
  }

  /** Consuming digit `i` of a digit string is one `Step`. */
  lemma MulSpecPrefix(c: Params, bs: seq<bool>, i: nat, pt: Point, acc: Point)
    requires i < |bs| && OnCurve(c, pt) && MulSpec(c, FromBits(bs[..i]), pt) == Ok(acc)
    ensures MulSpec(c, FromBits(bs[..i + 1]), pt) == Step(c, acc, bs[i], pt)
  {
    FromBitsSnoc(bs, i);
    MulSpecStep(c, FromBits(bs[..i + 1]), FromBits(bs[..i]), bs[i], pt, acc);
  }

  /** Once a prefix of the digits fails, so does every longer prefix. */
  lemma {:induction false} MulSpecErrPersists(c: Params, bs: seq<bool>, i: nat, j: nat, pt: Point)
    requires i <= j <= |bs|
    requires MulSpec(c, FromBits(bs[..i]), pt).Err?
    ensures MulSpec(c, FromBits(bs[..j]), pt) == MulSpec(c, FromBits(bs[..i]), pt)
    decreases j - i
  {
    if i < j {
      FromBitsSnoc(bs, i);
      var v := FromBits(bs[..i]);
      assert v > 0;
      assert FromBits(bs[..i + 1]) / 2 == v;
      MulSpecErrPersists(c, bs, i + 1, j, pt);
    }
  }

  /** `mul_point`: the loop computes the recursive spec, and the early
      returns give the operand itself back (not the sentinel) when it is
      the sentinel or when `k` is a multiple of the generator order. */
  method MulPoint(c: Params, k: nat, pt: Point) returns (r: Result<Point>)
    ensures !OnCurve(c, pt) ==> r == Err(NotOnCurve)
    ensures OnCurve(c, pt) && (IsIdentity(c, pt) || k % c.n == 0) ==> r == Ok(pt)
    ensures OnCurve(c, pt) && !IsIdentity(c, pt) && k % c.n != 0 ==> r == MulSpec(c, k, pt)
    ensures r == Mul(c, k, pt)
  {
    if !OnCurve(c, pt) {
      return Err(NotOnCurve);
    }
    if pt.x == c.p {
      return Ok(pt);
    }
    if k % c.n == 0 {
      return Ok(pt);
    }
    r := DoubleAndAdd(c, k, pt);
  }

  /** The loop of `mul_point`: one doubling per binary digit of `k`, most
      significant first, and one addition of the operand per one digit;
      the first error aborts the loop and is the result. */
  method DoubleAndAdd(c: Params, k: nat, pt: Point) returns (r: Result<Point>)
    requires OnCurve(c, pt)
    ensures r == MulSpec(c, k, pt)
  {
    var bits := Bits(k);
    BitsRoundTrip(k);
    var res := Identity(c);
    var i := 0;
    while i < |bits|
      invariant 0 <= i <= |bits|
      invariant MulSpec(c, FromBits(bits[..i]), pt) == Ok(res)
    {
      MulSpecPrefix(c, bits, i, pt, res);
      var next := Step(c, res, bits[i], pt);
      if next.Err? {
        MulSpecErrPersists(c, bits, i + 1, |bits|, pt);
        assert bits[..|bits|] == bits;
        return next;
      }
      res := next.value;
      i := i + 1;
    }
    assert bits[..|bits|] == bits;
    return Ok(res);
  }

  /** Every multiple of the sentinel is the sentinel. */
  lemma {:induction false} MulSpecOfIdentity(c: Params, k: nat)
    ensures MulSpec(c, k, Identity(c)) == Ok(Identity(c))
    decreases k
  {
    if k > 0 {
      MulSpecOfIdentity(c, k / 2);
    }
  }

  /** A positive multiple of a point off the curve fails with the
      curve-check error raised by `add_points`. */
  lemma {:induction false} MulSpecOffCurve(c: Params, k: nat, pt: Point)
    requires k >= 1 && !OnCurve(c, pt)
    ensures MulSpec(c, k, pt) == Err(NotOnCurve)
    decreases k
  {
    if k / 2 >= 1 {
      MulSpecOffCurve(c, k / 2, pt);
    } else {
      assert AddPoints(c, Identity(c), Identity(c)) == Ok(Identity(c));
    }
  }

  /** The first two early returns of `mul_point` agree with the loop
      they skip: an off-curve operand would make the first addition raise,
      and the canonical sentinel would come back unchanged. Only the third
      (k a multiple of n) departs from the double-and-add. */
  lemma MulEarlyReturnsAgree(c: Params, k: nat, pt: Point)
    ensures !OnCurve(c, pt) && k >= 1 ==> Mul(c, k, pt) == MulSpec(c, k, pt)
    ensures pt == Identity(c) ==> Mul(c, k, pt) == MulSpec(c, k, pt)
  {
    if !OnCurve(c, pt) && k >= 1 {
      MulSpecOffCurve(c, k, pt);
    }
    if pt == Identity(c) {
      MulSpecOfIdentity(c, k);
    }
  }

  /** One times an on-curve point is the point. */
  lemma MulSpecOne(c: Params, pt: Point)
    requires OnCurve(c, pt)
    ensures MulSpec(c, 1, pt) == Ok(pt)
  {
    assert AddPoints(c, Identity(c), Identity(c)) == Ok(Identity(c));
  }
}

=== FILE: toycurve.dfy ===
/** Worked scenarios on the textbook curve y^2 = x^3 + 2x + 2 over the
    integers modulo 17, whose generator G = (5, 1) has prime order 19:
    2G = (6, 3) and 3G = (10, 6). Private key d = 2, nonce k = 3. */
module ToyCurve {
  import opened Results
  import opened ModArith
  import opened Curve
  import opened ScalarMul
  import opened Ecdsa

  const Toy: Params := CurveParams(17, 2, 2, 5, 1, 19)

  lemma GOnCurve()
    ensures OnCurve(Toy, Point(5, 1))
  {
  }

  lemma TwoGOnCurve()
    ensures OnCurve(Toy, Point(6, 3))
  {
  }

  // G + G: tangent slope 77 / 2 == 13 (mod 17)

  lemma SlopeGG()
    ensures Slope(Toy, Point(5, 1), Point(5, 1)) == Ok(13)
  {
    assert ModDiv(77, 2, 17) == Ok(13);
  }

  lemma ChordGG()
    ensures Chord(Toy, Point(5, 1), Point(5, 1), 13) == Point(6, 3)
  {
  }

  lemma DoubleG()
    ensures AddPoints(Toy, Point(5, 1), Point(5, 1)) == Ok(Point(6, 3))
  {
    GOnCurve();
    SlopeGG();
    ChordGG();
    AddPointsBySlope(Toy, Point(5, 1), Point(5, 1), 13);
  }

  // 2G + G: chord slope -2 / -1 == 2 (mod 17)

  lemma SlopeTwoGG()
    ensures Slope(Toy, Point(6, 3), Point(5, 1)) == Ok(2)
  {
    assert ModDiv(-2, -1, 17) == Ok(2);
  }

  lemma ChordTwoGG()
    ensures Chord(Toy, Point(6, 3), Point(5, 1), 2) == Point(10, 6)
  {
  }

  lemma AddTwoGG()
    ensures AddPoints(Toy, Point(6, 3), Point(5, 1)) == Ok(Point(10, 6))
  {
    GOnCurve();
    TwoGOnCurve();
    SlopeTwoGG();
    ChordTwoGG();
    AddPointsBySlope(Toy, Point(6, 3), Point(5, 1), 2);
  }

  // G + 2G: chord slope 2 / 1 == 2 (mod 17)

  lemma SlopeGTwoG()
    ensures Slope(Toy, Point(5, 1), Point(6, 3)) == Ok(2)
  {
    assert ModDiv(2, 1, 17) == Ok(2);
  }

  lemma ChordGTwoG()
    ensures Chord(Toy, Point(5, 1), Point(6, 3), 2) == Point(10, 6)
  {
  }

  lemma AddGTwoG()
    ensures AddPoints(Toy, Point(5, 1), Point(6, 3)) == Ok(Point(10, 6))
  {
    GOnCurve();
    TwoGOnCurve();
    SlopeGTwoG();
    ChordGTwoG();
    AddPointsBySlope(Toy, Point(5, 1), Point(6, 3), 2);
  }

  // The double-and-add chain for 1, 2 and 3 times G

  lemma MulOneG()
    ensures MulSpec(Toy, 1, Point(5, 1)) == Ok(Point(5, 1))
  {
    GOnCurve();
    MulSpecOne(Toy, Point(5, 1));
  }

  lemma MulTwoG()
    ensures MulSpec(Toy, 2, Point(5, 1)) == Ok(Point(6, 3))
  {
    GOnCurve();
    MulOneG();
    DoubleG();
    MulSpecStep(Toy, 2, 1, false, Point(5, 1), Point(5, 1));
  }

  lemma MulThreeG()
    ensures MulSpec(Toy, 3, Point(5, 1)) == Ok(Point(10, 6))
  {
    GOnCurve();
    MulOneG();
    DoubleG();
    AddTwoGG();
    MulSpecStep(Toy, 3, 1, true, Point(5, 1), Point(5, 1));
  }

  // Scenarios

  /** `mul_point` returns G itself, not the point at infinity, for the
      multiples 0 and n = 19 of the order. */
  lemma ToyMulOrderGivesG()
    ensures Mul(Toy, 0, Point(5, 1)) == Ok(Point(5, 1))
    ensures Mul(Toy, 19, Point(5, 1)) == Ok(Point(5, 1))
  {
    GOnCurve();
  }

  /** Key pair for d = 2: Q = 2G = (6, 3). */
  lemma ToyKeypair()
    ensures GenerateKeypair(Toy, 2) == Ok(KeyPair(Point(6, 3), 2))
  {
    GOnCurve();
    MulTwoG();
  }

  lemma MulPointThreeG()
    ensures Mul(Toy, 3, Generator(Toy)) == Ok(Point(10, 6))
  {
    GOnCurve();
    MulThreeG();
  }

  lemma InverseOfThree()
    ensures ModInv(3, Toy.n) == Ok(13)
  {
  }

  lemma InverseOfTen()
    ensures ModInv(10, 19) == Ok(2)
  {
  }

  /** r = 3G.x mod 19 = 10, and s = 13 * (e + 2 * 10) mod 19 with 13 = 1/3. */
  lemma SignArithmetic()
    ensures Point(10, 6).x % Toy.n == 10
    ensures (13 * (10 + 2 * 10)) % Toy.n == 10
    ensures (13 * (18 + 2 * 10)) % Toy.n == 0
  {
  }

  lemma ToySignStepDigest10()
    ensures SignStep(Toy, 2, 10, 3) == Ok(Signature(10, 10))
  {
    MulPointThreeG();
    InverseOfThree();
    SignArithmetic();
    SignStepParts(Toy, 2, 10, 3, Point(10, 6), 13, 10, 10);
  }

  lemma ToySignStepDigest18()
    ensures SignStep(Toy, 2, 18, 3) == Ok(Signature(10, 0))
  {
    MulPointThreeG();
    InverseOfThree();
    SignArithmetic();
    SignStepParts(Toy, 2, 18, 3, Point(10, 6), 13, 10, 0);
  }

  /** Signing digest e = 10 with nonce 3 gives (10, 10). */
  lemma ToySign()
    ensures Sign(Toy, 2, 10, [3]) == Ok(Signature(10, 10))
  {
    ToySignStepDigest10();
    SignFirstNonce(Toy, 2, 10, [3]);
  }

  lemma ToyVerifyScalars()
    ensures VerifyScalars(Toy, 10, 10, 10) == Ok((1, 1))
  {
    InverseOfTen();
  }

  /** Verifying (10, 10) for digest 10 against Q = (6, 3) accepts:
      u1 = u2 = 1 and G + Q = (10, 6). */
  lemma ToyVerify()
    ensures Verify(Toy, Point(6, 3), 10, 10, 10) == Ok(true)
  {
    ToyVerifyScalars();
    GOnCurve();
    TwoGOnCurve();
    MulOneG();
    MulSpecOne(Toy, Point(6, 3));
    AddGTwoG();
  }

  /** For digest e = 18 the nonce 3 gives r == 10 and s == 0. The loop as
      written returns (10, 0) ... */
  lemma ToySignAcceptsZeroS()
    ensures Sign(Toy, 2, 18, [3]) == Ok(Signature(10, 0))
  {
    ToySignStepDigest18();
    SignFirstNonce(Toy, 2, 18, [3]);
  }

  /** ... which the corrected loop rejects, asking for another nonce ... */
  lemma ToyCorrectedSignRetries()
    ensures SignCorrected(Toy, 2, 18, [3]) == Err(NoncesExhausted)
  {
    ToySignStepDigest18();
    assert SignLoopEither(Toy, 2, 18, [], Signature(10, 0)) == Err(NoncesExhausted);
  }

  /** ... and which verification refuses with a missing-inverse error. */
  lemma ToyVerifyZeroS()
    ensures Verify(Toy, Point(6, 3), 18, 10, 0) == Err(NoInverse)
  {
  }

  /** (5, 2) is off the toy curve (4 != 1 mod 17): adding it to G raises
      the curve-check error instead of returning a point. */
  lemma ToyAddOffCurve()
    ensures AddPoints(Toy, Point(5, 2), Generator(Toy)) == Err(NotOnCurve)
  {
  }
}
